=== FILE: README.md ===
# MCPServer dispatch core, modelled in Dafny

A model of the tool server in `MCPServer/Program.cs`: a Model Context Protocol
server (protocol revision "2024-11-05") that reads one JSON-RPC 2.0 request
per line, answers `initialize`, `tools/list` and `tools/call`, and echoes the
request's `id` in every response (section 5 of the JSON-RPC 2.0
specification).

The model replaces reflection and `System.Text.Json` with explicit data:

- `Results` — `Option` and `Result`; an `Err` is an exception the C# code throws.
- `JsonValue` — a small JSON datatype (objects as maps).
- `Tools` — the registry: `ToolDescriptor` (the `[Tool(name, description)]`
  attribute plus the method's `ParamSpec`s in declaration order), the bound
  `Value`s handed to `MethodInfo.Invoke`, and `ToolResult`, what the call gave back.
- `Schema` — `MapTypeToJsonSchemaType` and `GenerateToolsFromType`, plus the
  JSON shape of a listed tool and what a client reads back from it.
- `Invoker` — `ToolInvoker.InvokeTool`: validation of `params` in fixed order,
  first-match lookup, the argument binder as a fold over the parameters, and
  a one-shot call. The outcome records the tool calls made, so "called at most
  once, and only after every parameter bound" is a property of the result.
- `Quotes` — `QuoteGenerator`: the hour classifier and the quote lists.
- `MyTools` — the program's two tools, `say_hello` and
  `get_time_based_quotes_based`, and the registry reflection finds for them.
- `Server` — the `method switch`, `HandleToolCall`, the `initialize` payload
  and `FinalResponse`; `Serve` is the program's own server over `MyTools`.

External behaviour enters as parameters: `convert` stands for
`JsonElement.Deserialize` to a parameter's type (a value, or `None` where the
deserialiser throws), `run` for `MethodInfo.Invoke`, and `index` for
`random.Next(quotes.Count)`.

Three behaviours of the program are modelled as written, although each could
be taken for an oversight:

- The schema and the binder disagree about defaults: `required` lists every
  parameter, including those with a default (Program.cs:265), while the binder
  fills a missing argument from its default (Program.cs:339-341).
  `Schema.DefaultedParametersAreRequired` states the schema's behaviour.
- Registering two tools under one name is not rejected: lookup takes the first
  match (Program.cs:316). Distinct names are a hypothesis of the lemmas that
  need them (`UniqueToolNames`), and `MyTools.RegistryNamesAreUnique` shows the
  program's registry meets it.
- No per-request JSON-RPC error object exists: every dispatcher error is an
  exception that ends the process, modelled as `Err` from `Server.HandleRequest`.

## Model

| member | source | states |
|---|---|---|
| `Schema.MapTypeToJsonSchemaType` | MCPServer/Program.cs:274-285 | the result is one of the four schema type names; "integer" exactly for int/long, "number" exactly for float/double/decimal, "boolean" exactly for bool, "string" for string and every other type |
| `Schema.Properties` | MCPServer/Program.cs:256-264 | the `properties` keys are exactly the parameter names; each name maps to the entry of its last parameter of that name (mapped type, "Parameter <name>") |
| `Schema.GenerateToolsFromType` | MCPServer/Program.cs:240-272 | one entry per registered tool in registration order, with its name and description, schema type "object", property keys the parameter names, each parameter's entry holding its mapped type and "Parameter <name>" (the last parameter of a name wins), and `required` the full parameter-name list in declaration order |
| `Schema.SchemaPropertyOfParam` | MCPServer/Program.cs:256-264 | with distinct parameter names, every parameter has a property entry with its mapped type and description "Parameter <name>" |
| `Schema.RequiredNamesAreParameters` | MCPServer/Program.cs:256-266 | every required name has a property entry, and every parameter without a default is required |
| `Schema.DefaultedParametersAreRequired` | MCPServer/Program.cs:265 | a parameter with a default is still listed in `required` |
| `Schema.ReadListedPropertyOfToolJson` | MCPServer/Program.cs:225-236 | a client reading a property of a serialised tool entry gets back exactly its synthesized type and description |
| `Schema.ReadListedToolOfToolJson` | MCPServer/Program.cs:218-236 | a client reading a serialised tool entry gets back exactly the tool's name and required names |
| `Invoker.ReadCall` | MCPServer/Program.cs:292-312 | a successful validation yields a non-empty string `name` taken from params, and `arguments` present exactly when params has it, as that object's fields |
| `Invoker.ValidationReportsFirstViolation` | MCPServer/Program.cs:292-311 | validation succeeds exactly when params has no defect; otherwise the reported error is a defect present and the first in the order null params, bad name, empty name, non-object arguments |
| `Invoker.Lookup` | MCPServer/Program.cs:314-323 | the result is the index of the first tool with the requested name, and none exactly when no tool has that name |
| `Invoker.LookupFindsUniquelyNamedTool` | MCPServer/Program.cs:314-320 | with distinct names, looking up tool k's name finds k |
| `Invoker.BindOne` | MCPServer/Program.cs:330-346 | every error of a slot names its parameter; the missing-argument error arises exactly when the argument is not supplied and there is no default, the type-mismatch error exactly when it is supplied and does not convert; a bound value is the conversion of the supplied argument, else the default |
| `Invoker.Bind` | MCPServer/Program.cs:325-347 | binding succeeds exactly when every parameter binds; the vector has one slot per parameter holding that parameter's binding; a failure is the error of a parameter all of whose predecessors bind |
| `Invoker.BoundSlot` | MCPServer/Program.cs:332-342 | a bound slot holds the converted supplied argument if one was supplied, else the parameter's default |
| `Invoker.FirstFailureWins` | MCPServer/Program.cs:328-346 | the error reported is the error of the first parameter in declaration order that cannot be bound |
| `Invoker.MissingArgumentNamesParameter` | MCPServer/Program.cs:339-346 | a parameter neither supplied nor defaulted, after bindable ones, makes binding fail with a missing-argument error naming it |
| `Invoker.AbsentArgumentsAreEmpty` | MCPServer/Program.cs:300-302 | an absent `arguments` binds exactly like an empty object |
| `Invoker.SuppliedArgumentsBind` | MCPServer/Program.cs:328-338 | supplying every parameter by name, with every conversion succeeding, binds |
| `Invoker.SuppliedArgumentsAreNeverMissing` | MCPServer/Program.cs:332-346 | supplying every parameter by name never yields a missing-argument error |
| `Invoker.InvokeTool` | MCPServer/Program.cs:290-358 | at most one tool call; a validation error is the result, before any lookup or call; no tool of the requested name gives exactly a tool-not-found error naming it, with no call, and a tool-not-found result only arises that way; a binding error of the looked-up tool is the result, with no call; otherwise the looked-up tool is called once with the full bound vector, and its content list is the result, anything else a result error, an exception an invocation error; result and invocation errors occur only after a call |
| `Invoker.InvokeReportsMissingArgument` | MCPServer/Program.cs:339-346 | at the dispatcher, the first unbindable parameter, when neither supplied nor defaulted, yields a missing-argument error naming it and no call |
| `Invoker.InvokeReportsTypeMismatch` | MCPServer/Program.cs:332-338 | at the dispatcher, the first unbindable parameter, when supplied but not convertible, yields a type-mismatch error naming it and no call |
| `Invoker.CalledIffFullyBound` | MCPServer/Program.cs:325-349 | the tool is called exactly when validation, lookup and binding of every parameter succeed |
| `Invoker.ArgumentsForEveryParameterReachTheTool` | MCPServer/Program.cs:294-347 | with distinct tool names, a call by a registered non-empty name with an argument for every parameter never fails with tool-not-found or missing-argument, and with all conversions succeeding calls that tool once with the bound vector |
| `Quotes.QuotesFor` | MCPServer/Program.cs:153-179 | every category's key is in the quote dictionary (the indexer at line 197 never throws) and each list has three quotes |
| `Quotes.GetTimeOfDay` | MCPServer/Program.cs:181-191 | a partition of all integers: 5-11 morning, 12-16 afternoon, 17-20 evening, everything else night |
| `Quotes.GetQuoteForTime` | MCPServer/Program.cs:193-202 | for any index below the list length, the quote is a member of the hour's category list |
| `Quotes.CategoriesAreDisjoint` | MCPServer/Program.cs:153-179 | no quote belongs to two categories |
| `Quotes.MorningQuote` | MCPServer/Program.cs:181-201 | a quote for a morning hour is a morning quote and no other category's |
| `MyTools.RegistryNamesAreUnique` | MCPServer/Program.cs:122-136 | the two tools have distinct non-empty names and distinct parameter names |
| `MyTools.ReturnResponse` | MCPServer/Program.cs:138-148 | exactly one item, with keys type and text only, type "text" and the given text |
| `MyTools.SayHello` | MCPServer/Program.cs:132-136 | one text item whose text is "Hello, " followed by the name and "!", from which the name is recovered |
| `MyTools.GetTimeBasedQuote` | MCPServer/Program.cs:124-130 | one text item whose text is a quote of the hour's category |
| `MyTools.Run` | MCPServer/Program.cs:122-136 | an `int` argument to the quote tool returns its quote item, a `string` argument to `say_hello` returns its greeting, a content list comes only from these two tools and is a single text item |
| `Server.ReturnInitializeResponse` | MCPServer/Program.cs:68-88 | the payload has exactly the keys protocolVersion, capabilities, serverInfo and instructions, with protocolVersion "2024-11-05" and tools.listChanged true |
| `Server.ToolsDictionary` | MCPServer/Program.cs:59-66 | the body has the single key tools, an array with one serialised entry per registered tool in order |
| `Server.HandleToolCall` | MCPServer/Program.cs:41-57 | succeeds exactly when the dispatcher does, with a body whose only key is content, from which a client reads back exactly the dispatcher's items in order; otherwise fails with the dispatcher's error |
| `Server.ReadContentOfContentJson` | MCPServer/Program.cs:47-50 | a client reading a serialised content list gets back exactly the items, in order |
| `Server.Route` | MCPServer/Program.cs:23-29 | initialize, tools/list and tools/call go to their handlers, every other method gives an empty body, and only tools/call can fail |
| `Server.FinalResponse` | MCPServer/Program.cs:90-105 | a client reading the serialised envelope finds jsonrpc "2.0" and gets back exactly the request's id and the result body |
| `Server.HandleRequest` | MCPServer/Program.cs:22-31 | every answer carries jsonrpc "2.0" and the request's id, which a client reads back from the serialised envelope; only `tools/call` can fail |
| `Server.Serve` | MCPServer/Program.cs:22-31 | the program's own server over `MyTools` echoes the id in every answer |
| `Server.RouterOutcomes` | MCPServer/Program.cs:23-29 | `initialize` gives the constant payload with protocolVersion "2024-11-05", `tools/list` gives `{tools}` from synthesis, `tools/call` gives `{content}` or the dispatcher's error, any other method an empty result |
| `Server.CallErrorsComeFromDispatcher` | MCPServer/Program.cs:41-57 | a `tools/call` fails exactly when the dispatcher fails, with its error |
| `Server.ToolsListAdvertisesRegistry` | MCPServer/Program.cs:59-66 | the `tools/list` answer lists every registered tool in order, and a client reads back each one's name and full parameter-name list |
| `Server.ToolsListAdvertisesParameterTypes` | MCPServer/Program.cs:256-264 | in the tools/list answer, each parameter of each tool (distinct parameter names) reads back with its mapped type and description "Parameter <name>" |
| `Server.ListThenCall` | MCPServer/Program.cs:26-27 | calling a tool by a name `tools/list` advertised, with every argument its schema requires, never fails with tool-not-found or missing-argument (distinct tool names) |
| `Server.EmptyNamedToolIsUncallable` | MCPServer/Program.cs:297-298 | a call naming the empty tool name fails with the empty-name error |
| `Server.SayHelloAnswers` | MCPServer/Program.cs:132-136 | `say_hello` with any argument object whose name converts to a string n answers content `[{type: "text", text: "Hello, <n>!"}]` |
| `Server.TimeQuoteAnswers` | MCPServer/Program.cs:124-130 | the quote tool with any argument object whose hour converts to an integer h answers one text item holding a quote of h's part of the day |
| `Server.SayHelloAda` | MCPServer/Program.cs:132-136 | `say_hello` with name "Ada" answers content `[{type: "text", text: "Hello, Ada!"}]` |
| `Server.MorningHourAnswersMorningQuote` | MCPServer/Program.cs:124-130 | the quote tool at hour 9 answers one text item holding a morning quote |
| `Server.UnknownToolFails` | MCPServer/Program.cs:322-323 | a call of "does_not_exist" fails with tool-not-found naming it |

## Left out

- The read loop, `Console.WriteLine`, and the catch-and-rethrow that ends the process (Program.cs:5-39, 52-56): I/O and process lifecycle. An `Err` stands for the exception.
- Parsing a request line, its case-insensitive property matching, `null` from the deserialiser ("Deserialization failed."), and the `required` envelope properties: JSON decoding belongs to `System.Text.Json`. A `Request` is the decoded value.
- Serialisation to text: the line is a JSON value (`ResponseJson`), not characters. Objects are maps, so key order on the wire is not modelled; the keys are the camelCase names the serialiser produces.
- The conversion rules of `JsonElement.Deserialize` (Program.cs:334): abstract as `convert`.
- Reflection: `GetMethods` order, `GetCustomAttribute`, and the different binding flags of listing (public, declared only, line 244) and lookup (also non-public, line 315). Both read one explicit registry. `MyTools` has no non-public tool, so the two views agree for this program.
- `new Random()` and `random.Next` (Program.cs:198-200): `index` is a parameter below the list length.
- 32-bit width of `Id` and of the `hour` argument: ids and hours are unbounded integers. Out-of-range input is rejected by the deserialiser, which is not modelled.
- Exceptions from the reflective call or from inside the tool: `MethodInfo.Invoke` raises the first kind (a wrong argument type or count) unwrapped and wraps the second. Both are the `Threw` result and the `InvocationFailed` error.

=== FILE: invoker.dfy ===
/** The dispatcher and argument binder: `ToolInvoker.InvokeTool`
    (MCPServer/Program.cs:288-359). Every exception it throws is an `Error`;
    the per-parameter `JsonElement.Deserialize` is the `convert` parameter and
    `MethodInfo.Invoke` is the `run` parameter. */
module Invoker {
  import opened Results
  import opened JsonValue
  import opened Tools

  /** The exceptions `InvokeTool` can end with. */
  datatype Error =
    | ParamsNull                     // "Params cannot be null."
    | InvalidName                    // "Missing or invalid 'name' parameter."
    | EmptyName                      // "Tool name cannot be null or empty."
    | ArgumentsNotObject             // "'arguments' parameter is not a valid JSON object."
    | ToolNotFound(tool: string)     // "Tool method '<tool>' not found."
    | MissingArgument(param: string) // "Missing required argument '<param>'."
    | ArgumentTypeMismatch(param: string) // the deserialiser's JsonException
    | InvocationFailed(tool: string) // an exception from the reflective call or from inside the tool
    | InvalidResult(tool: string)    // "Tool method '<tool>' did not return a valid result."

  /** The conversion of a supplied JSON argument to a parameter's declared
      type: a value, or `None` when the deserialiser would throw. */
  type Converter = (Json, ClrType) -> Option<Value>

  /** The reflective call of a registered tool on a bound argument vector. */
  type Runner = (ToolDescriptor, seq<Value>) -> ToolResult

  /** The validated `params`: the requested tool name and the optional
      `arguments` object. */
  datatype CallTarget = CallTarget(toolName: string, arguments: Option<map<string, Json>>)

  /** One call of a tool implementation: the registry index and the arguments. */
  datatype Invocation = Invocation(tool: nat, args: seq<Value>)

  /** The dispatcher's result together with the tool calls it performed. */
  datatype Outcome = Outcome(result: Result<seq<ContentItem>, Error>, calls: seq<Invocation>)

  // ---------------------------------------------------------------------
  // Validation of `params`

  predicate HasStringName(p: map<string, Json>)
  {
    "name" in p && p["name"].JString?
  }

  /** Reads the tool name and `arguments` out of `params`, checking, in this
      order: params present, `name` a string, `name` non-empty, `arguments`
      (when present) an object. */
  function ReadCall(params: Option<map<string, Json>>): (r: Result<CallTarget, Error>)
    ensures r.Ok? ==>
      && params.Some?
      && "name" in params.value
      && params.value["name"] == JString(r.value.toolName)
      && r.value.toolName != ""
      && ("arguments" in params.value <==> r.value.arguments.Some?)
      && (r.value.arguments.Some? ==> params.value["arguments"] == JObject(r.value.arguments.value))
  {
    if params.None? then Err(ParamsNull)
    else
      var p := params.value;
      if !HasStringName(p) then Err(InvalidName)
      else if p["name"].s == "" then Err(EmptyName)
      else if "arguments" !in p then Ok(CallTarget(p["name"].s, None))
      else if p["arguments"].JObject? then Ok(CallTarget(p["name"].s, Some(p["arguments"].fields)))
      else Err(ArgumentsNotObject)
  }

  /** Every shape defect of `params`, independent of the order of checks. */
  function Violations(params: Option<map<string, Json>>): set<Error>
  {
    if params.None? then {ParamsNull}
    else
      var p := params.value;
      (if !HasStringName(p) then {InvalidName} else {})
      + (if HasStringName(p) && p["name"].s == "" then {EmptyName} else {})
      + (if "arguments" in p && !p["arguments"].JObject? then {ArgumentsNotObject} else {})
  }

  /** The position of a validation error in the order of the checks. */
  function Rank(e: Error): nat
  {
    match e
    case ParamsNull => 0
    case InvalidName => 1
    case EmptyName => 2
    case ArgumentsNotObject => 3
    case _ => 4
  }

  /** Validation succeeds exactly when `params` has no defect; otherwise it
      reports the defect that comes first in the fixed order. */
  lemma ValidationReportsFirstViolation(params: Option<map<string, Json>>)
    ensures ReadCall(params).Ok? <==> Violations(params) == {}
    ensures ReadCall(params).Err? ==>
      && ReadCall(params).error in Violations(params)
      && forall e :: e in Violations(params) ==> Rank(ReadCall(params).error) <= Rank(e)
  {
  }

  // ---------------------------------------------------------------------
  // Lookup

  /** `FirstOrDefault` over the registry: the index of the first tool whose
      name equals `name`, compared ordinally. */
  function Lookup(registry: seq<ToolDescriptor>, name: string): (r: Option<nat>)
    ensures r.Some? ==>
      && r.value < |registry|
      && registry[r.value].name == name
      && forall j :: 0 <= j < r.value ==> registry[j].name != name
    ensures r.None? <==> forall j :: 0 <= j < |registry| ==> registry[j].name != name
  {
    if registry == [] then None
    else if registry[0].name == name then Some(0)
    else match Lookup(registry[1..], name)
      case None => None
      case Some(i) => Some(i + 1)
  }

  /** With distinct tool names, lookup finds tool `k` by its own name. */
  lemma LookupFindsUniquelyNamedTool(registry: seq<ToolDescriptor>, k: int)
    requires UniqueToolNames(registry)
    requires 0 <= k < |registry|
    ensures Lookup(registry, registry[k].name) == Some(k)
  {
  }

  // ---------------------------------------------------------------------
  // Binding

  /** The call supplies an argument named like parameter `p`. */
  predicate Supplied(p: ParamSpec, arguments: Option<map<string, Json>>)
  {
    arguments.Some? && p.name in arguments.value
  }

  /** One slot of the argument vector: the supplied argument converted to the
      parameter's type, else the parameter's default, else an error. */
  function BindOne(p: ParamSpec, arguments: Option<map<string, Json>>, convert: Converter): (r: Result<Value, Error>)
    ensures r.Err? ==> r.error == ArgumentTypeMismatch(p.name) || r.error == MissingArgument(p.name)
    ensures r == Err(MissingArgument(p.name)) <==> !Supplied(p, arguments) && p.defaultValue.None?
    ensures r == Err(ArgumentTypeMismatch(p.name)) <==>
      Supplied(p, arguments) && convert(arguments.value[p.name], p.paramType).None?
    ensures r.Ok? ==>
      && (Supplied(p, arguments) ==> convert(arguments.value[p.name], p.paramType) == Some(r.value))
      && (!Supplied(p, arguments) ==> p.defaultValue == Some(r.value))
  {
    if Supplied(p, arguments) then
      match convert(arguments.value[p.name], p.paramType)
      case Some(v) => Ok(v)
      case None => Err(ArgumentTypeMismatch(p.name))
    else if p.defaultValue.Some? then Ok(p.defaultValue.value)
    else Err(MissingArgument(p.name))
  }

  /** The argument vector, filled in declaration order; the first parameter
      that cannot be bound ends binding with its error. */
  function Bind(ps: seq<ParamSpec>, arguments: Option<map<string, Json>>, convert: Converter): (r: Result<seq<Value>, Error>)
    ensures r.Ok? <==> forall i :: 0 <= i < |ps| ==> BindOne(ps[i], arguments, convert).Ok?
    ensures r.Ok? ==>
      && |r.value| == |ps|
      && forall i :: 0 <= i < |ps| ==> BindOne(ps[i], arguments, convert) == Ok(r.value[i])
    ensures r.Err? ==>
      exists i :: 0 <= i < |ps|
        && BindOne(ps[i], arguments, convert) == Err(r.error)
        && forall j :: 0 <= j < i ==> BindOne(ps[j], arguments, convert).Ok?
  {
    if ps == [] then Ok([])
    else match BindOne(ps[0], arguments, convert)
      case Err(e) => Err(e)
      case Ok(v) =>
        match Bind(ps[1..], arguments, convert)
        case Err(e) =>
          ghost var i :| 0 <= i < |ps[1..]|
            && BindOne(ps[1..][i], arguments, convert) == Err(e)
            && forall j :: 0 <= j < i ==> BindOne(ps[1..][j], arguments, convert).Ok?;
          assert BindOne(ps[i + 1], arguments, convert) == Err(e);
          Err(e)
        case Ok(vs) => Ok([v] + vs)
  }

  /** Slot semantics: a bound slot holds the converted supplied argument when
      one was supplied, and otherwise the parameter's default. */
  lemma BoundSlot(ps: seq<ParamSpec>, arguments: Option<map<string, Json>>, convert: Converter, i: int)
    requires Bind(ps, arguments, convert).Ok?
    requires 0 <= i < |ps|
    ensures var v := Bind(ps, arguments, convert).value[i];
      && (arguments.Some? && ps[i].name in arguments.value ==> convert(arguments.value[ps[i].name], ps[i].paramType) == Some(v))
      && (!(arguments.Some? && ps[i].name in arguments.value) ==> ps[i].defaultValue == Some(v))
  {
  }

  /** The error of the first unbindable parameter is the error of binding. */
  lemma FirstFailureWins(ps: seq<ParamSpec>, arguments: Option<map<string, Json>>, convert: Converter, i: int)
    requires 0 <= i < |ps|
    requires BindOne(ps[i], arguments, convert).Err?
    requires forall j :: 0 <= j < i ==> BindOne(ps[j], arguments, convert).Ok?
    ensures Bind(ps, arguments, convert) == Err(BindOne(ps[i], arguments, convert).error)
  {
    var r := Bind(ps, arguments, convert);
    assert r.Err?;
    var k :| 0 <= k < |ps|
      && BindOne(ps[k], arguments, convert) == Err(r.error)
      && forall j :: 0 <= j < k ==> BindOne(ps[j], arguments, convert).Ok?;
  }

  /** A parameter that is neither supplied nor defaulted, with every earlier
      parameter bindable, is reported by name. */
  lemma MissingArgumentNamesParameter(ps: seq<ParamSpec>, arguments: Option<map<string, Json>>, convert: Converter, i: int)
    requires 0 <= i < |ps|
    requires !(arguments.Some? && ps[i].name in arguments.value)
    requires ps[i].defaultValue.None?
    requires forall j :: 0 <= j < i ==> BindOne(ps[j], arguments, convert).Ok?
    ensures Bind(ps, arguments, convert) == Err(MissingArgument(ps[i].name))
  {
    FirstFailureWins(ps, arguments, convert, i);
  }

  /** An absent `arguments` binds exactly like an empty object. */
  lemma {:induction false} AbsentArgumentsAreEmpty(ps: seq<ParamSpec>, convert: Converter)
    ensures Bind(ps, None, convert) == Bind(ps, Some(map[]), convert)
  {
    if ps != [] {
      assert BindOne(ps[0], None, convert) == BindOne(ps[0], Some(map[]), convert);
      AbsentArgumentsAreEmpty(ps[1..], convert);
    }
  }

  /** Supplying every parameter by name, with every conversion succeeding,
      always binds. */
  lemma SuppliedArgumentsBind(ps: seq<ParamSpec>, arguments: map<string, Json>, convert: Converter)
    requires forall i :: 0 <= i < |ps| ==> ps[i].name in arguments
    requires forall i :: 0 <= i < |ps| ==> convert(arguments[ps[i].name], ps[i].paramType).Some?
    ensures Bind(ps, Some(arguments), convert).Ok?
  {
  }

  /** Supplying every parameter by name never fails with a missing argument. */
  lemma SuppliedArgumentsAreNeverMissing(ps: seq<ParamSpec>, arguments: map<string, Json>, convert: Converter)
    requires forall i :: 0 <= i < |ps| ==> ps[i].name in arguments
    ensures Bind(ps, Some(arguments), convert).Err? ==> !Bind(ps, Some(arguments), convert).error.MissingArgument?
  {
    var r := Bind(ps, Some(arguments), convert);
    if r.Err? {
      var i :| 0 <= i < |ps| && BindOne(ps[i], Some(arguments), convert) == Err(r.error);
    }
  }

  // ---------------------------------------------------------------------
  // Dispatch

  /** `InvokeTool`: validate `params`, find the tool, bind every argument,
      then call the tool once and accept only a content list. */
  function InvokeTool(registry: seq<ToolDescriptor>, run: Runner, convert: Converter, params: Option<map<string, Json>>): (o: Outcome)
    ensures |o.calls| <= 1
    ensures ReadCall(params).Err? ==> o == Outcome(Err(ReadCall(params).error), [])
    ensures o.result.Err? && o.result.error.ToolNotFound? ==>
      && o.calls == []
      && ReadCall(params).Ok?
      && o.result.error.tool == ReadCall(params).value.toolName
      && forall j :: 0 <= j < |registry| ==> registry[j].name != o.result.error.tool
    ensures o.result.Err? && (o.result.error.MissingArgument? || o.result.error.ArgumentTypeMismatch?) ==> o.calls == []
    ensures o.calls != [] ==>
      && ReadCall(params).Ok?
      && var target := ReadCall(params).value;
      && var call := o.calls[0];
      && Lookup(registry, target.toolName) == Some(call.tool)
      && call.tool < |registry|
      && Bind(registry[call.tool].parameters, target.arguments, convert) == Ok(call.args)
      && |call.args| == |registry[call.tool].parameters|
    ensures o.result.Ok? ==> o.calls != [] && run(registry[o.calls[0].tool], o.calls[0].args) == ContentList(o.result.value)
    ensures ReadCall(params).Ok? && Lookup(registry, ReadCall(params).value.toolName).None? ==>
      o == Outcome(Err(ToolNotFound(ReadCall(params).value.toolName)), [])
    ensures ReadCall(params).Ok? && Lookup(registry, ReadCall(params).value.toolName).Some? ==>
      var target := ReadCall(params).value;
      var bound := Bind(registry[Lookup(registry, target.toolName).value].parameters, target.arguments, convert);
      bound.Err? ==> o == Outcome(Err(bound.error), [])
    ensures ReadCall(params).Ok? && Lookup(registry, ReadCall(params).value.toolName).Some? ==>
      var target := ReadCall(params).value;
      var t := Lookup(registry, target.toolName).value;
      var bound := Bind(registry[t].parameters, target.arguments, convert);
      bound.Ok? ==> o.calls == [Invocation(t, bound.value)]
    ensures o.calls != [] ==>
      var name := ReadCall(params).value.toolName;
      match run(registry[o.calls[0].tool], o.calls[0].args)
      case ContentList(items) => o.result == Ok(items)
      case NotContentList => o.result == Err(InvalidResult(name))
      case Threw => o.result == Err(InvocationFailed(name))
    ensures o.result.Err? && (o.result.error.InvalidResult? || o.result.error.InvocationFailed?) ==> o.calls != []
  {
    match ReadCall(params)
    case Err(e) => Outcome(Err(e), [])
    case Ok(target) =>
      match Lookup(registry, target.toolName)
      case None => Outcome(Err(ToolNotFound(target.toolName)), [])
      case Some(i) =>
        match Bind(registry[i].parameters, target.arguments, convert)
        case Err(e) => Outcome(Err(e), [])
        case Ok(args) =>
          var calls := [Invocation(i, args)];
          match run(registry[i], args)
          case ContentList(items) => Outcome(Ok(items), calls)
          case NotContentList => Outcome(Err(InvalidResult(target.toolName)), calls)
          case Threw => Outcome(Err(InvocationFailed(target.toolName)), calls)
  }

  /** At the dispatcher: when the first parameter of the requested tool that
      cannot be bound is neither supplied nor defaulted, the call fails with a
      missing-argument error naming it, and the tool is not called. */
  lemma InvokeReportsMissingArgument(
    registry: seq<ToolDescriptor>, run: Runner, convert: Converter, params: Option<map<string, Json>>, t: nat, i: int)
    requires ReadCall(params).Ok?
    requires Lookup(registry, ReadCall(params).value.toolName) == Some(t)
    requires 0 <= i < |registry[t].parameters|
    requires var p := registry[t].parameters[i]; var args := ReadCall(params).value.arguments;
      !(args.Some? && p.name in args.value) && p.defaultValue.None?
    requires forall j :: 0 <= j < i ==> BindOne(registry[t].parameters[j], ReadCall(params).value.arguments, convert).Ok?
    ensures InvokeTool(registry, run, convert, params) == Outcome(Err(MissingArgument(registry[t].parameters[i].name)), [])
  {
    MissingArgumentNamesParameter(registry[t].parameters, ReadCall(params).value.arguments, convert, i);
  }

  /** At the dispatcher: when the first parameter of the requested tool that
      cannot be bound was supplied but does not convert, the call fails with a
      type-mismatch error naming it, and the tool is not called. */
  lemma InvokeReportsTypeMismatch(
    registry: seq<ToolDescriptor>, run: Runner, convert: Converter, params: Option<map<string, Json>>, t: nat, i: int)
    requires ReadCall(params).Ok?
    requires Lookup(registry, ReadCall(params).value.toolName) == Some(t)
    requires 0 <= i < |registry[t].parameters|
    requires var p := registry[t].parameters[i]; var args := ReadCall(params).value.arguments;
      args.Some? && p.name in args.value && convert(args.value[p.name], p.paramType).None?
    requires forall j :: 0 <= j < i ==> BindOne(registry[t].parameters[j], ReadCall(params).value.arguments, convert).Ok?
    ensures InvokeTool(registry, run, convert, params) == Outcome(Err(ArgumentTypeMismatch(registry[t].parameters[i].name)), [])
  {
    FirstFailureWins(registry[t].parameters, ReadCall(params).value.arguments, convert, i);
  }

  /** All-or-nothing: the tool is called (once) exactly when validation,
      lookup and binding of every parameter all succeed. */
  lemma CalledIffFullyBound(registry: seq<ToolDescriptor>, run: Runner, convert: Converter, params: Option<map<string, Json>>)
    ensures var o := InvokeTool(registry, run, convert, params);
      o.calls != [] <==>
        && ReadCall(params).Ok?
        && var target := ReadCall(params).value;
        && Lookup(registry, target.toolName).Some?
        && Bind(registry[Lookup(registry, target.toolName).value].parameters, target.arguments, convert).Ok?
  {
  }

  /** The call requested with a listed tool's name and an argument for every
      parameter, when the tool name is non-empty and names are distinct,
      never fails with `ToolNotFound` or `MissingArgument`; when every
      conversion succeeds the tool is called. */
  lemma ArgumentsForEveryParameterReachTheTool(
    registry: seq<ToolDescriptor>, run: Runner, convert: Converter, k: int, arguments: map<string, Json>)
    requires UniqueToolNames(registry)
    requires 0 <= k < |registry|
    requires registry[k].name != ""
    requires forall n :: n in ParamNames(registry[k].parameters) ==> n in arguments
    ensures var o := InvokeTool(registry, run, convert,
        Some(map["name" := JString(registry[k].name), "arguments" := JObject(arguments)]));
      && !(o.result.Err? && (o.result.error.ToolNotFound? || o.result.error.MissingArgument?))
      && ((forall i :: 0 <= i < |registry[k].parameters| ==>
            convert(arguments[registry[k].parameters[i].name], registry[k].parameters[i].paramType).Some?)
          ==> o.calls == [Invocation(k, Bind(registry[k].parameters, Some(arguments), convert).value)])
  {
    var ps := registry[k].parameters;
    LookupFindsUniquelyNamedTool(registry, k);
    forall i | 0 <= i < |ps|
      ensures ps[i].name in arguments
    {
      assert ParamNames(ps)[i] == ps[i].name;
    }
    SuppliedArgumentsAreNeverMissing(ps, arguments, convert);
    if forall i :: 0 <= i < |ps| ==> convert(arguments[ps[i].name], ps[i].paramType).Some? {
      SuppliedArgumentsBind(ps, arguments, convert);
    }
  }
}

=== FILE: json.dfy ===
/** A small JSON value, standing in for `System.Text.Json`'s `JsonElement`
    (on input) and for the dictionaries and lists the server serialises (on
    output). Objects are maps: key order on the wire is not modelled. */
module JsonValue {
  import opened Results

  datatype Json =
    | JNull
    | JBool(b: bool)
    | JNumber(n: real)
    | JString(s: string)
    | JArray(items: seq<Json>)
    | JObject(fields: map<string, Json>)

  /** A list of strings as a JSON array of string values. */
  function Strings(ss: seq<string>): (js: seq<Json>)
    ensures |js| == |ss|
    ensures forall i :: 0 <= i < |ss| ==> js[i] == JString(ss[i])
  {
    seq(|ss|, i requires 0 <= i < |ss| => JString(ss[i]))
  }

  /** Reads a JSON array back as a list of strings, failing on any element
      that is not a string (what a client does with a `required` array). */
  function ReadStrings(js: seq<Json>): (r: Option<seq<string>>)
    ensures r.Some? <==> forall i :: 0 <= i < |js| ==> js[i].JString?
    ensures r.Some? ==> |r.value| == |js| && forall i :: 0 <= i < |js| ==> js[i] == JString(r.value[i])
  {
    if js == [] then Some([])
    else if !js[0].JString? then None
    else match ReadStrings(js[1..])
      case None => None
      case Some(rest) => Some([js[0].s] + rest)
  }

  /** Reading back what `Strings` wrote gives the original list. */
  lemma {:induction false} ReadStringsOfStrings(ss: seq<string>)
    ensures ReadStrings(Strings(ss)) == Some(ss)
  {
    var r := ReadStrings(Strings(ss));
    assert r.Some?;
    assert |r.value| == |ss|;
    assert forall i :: 0 <= i < |ss| ==> r.value[i] == ss[i] by {
      forall i | 0 <= i < |ss|
        ensures r.value[i] == ss[i]
      {
        assert Strings(ss)[i] == JString(ss[i]);
      }
    }
    assert r.value == ss;
  }
}

=== FILE: my_tools.dfy ===
/** The concrete tools of `MyTools` (MCPServer/Program.cs:122-149) and the
    registry reflection would discover for them. */
module MyTools {
  import opened Results
  import opened Tools
  import Quotes

  const TimeQuoteName := "get_time_based_quotes_based"
  const SayHelloName := "say_hello"

  const TimeQuoteTool := ToolDescriptor(TimeQuoteName, "Get a quote based on the hour of day", [ParamSpec("hour", IntType, None)])
  const SayHelloTool := ToolDescriptor(SayHelloName, "Say hello to someone", [ParamSpec("name", StringType, None)])

  /** The `[Tool]` methods of `MyTools`, in declaration order. */
  const Registry: seq<ToolDescriptor> := [TimeQuoteTool, SayHelloTool]

  /** The registry's tool names are distinct. */
  lemma RegistryNamesAreUnique()
    ensures UniqueToolNames(Registry)
    ensures forall i :: 0 <= i < |Registry| ==> Registry[i].name != "" && UniqueParamNames(Registry[i].parameters)
  {
  }

  /** `ReturnResponse`: a list of exactly one text item. */
  function ReturnResponse(text: string): (items: seq<ContentItem>)
    ensures |items| == 1 && IsTextItem(items[0])
    ensures items[0]["text"] == text
  {
    [map["type" := "text", "text" := text]]
  }

  /** `SayHello`: one text item greeting `name`. */
  function SayHello(name: string): (items: seq<ContentItem>)
    ensures |items| == 1 && IsTextItem(items[0])
    ensures var text := items[0]["text"];
      && |text| == |name| + 8
      && text[..7] == "Hello, " && text[|text| - 1] == '!'
      && text[7..|text| - 1] == name
  {
    ReturnResponse("Hello, " + name + "!")
  }

  /** `GetTimeBasedQuote`: one text item holding a quote for the hour's part
      of the day. */
  function GetTimeBasedQuote(hour: int, index: nat): (items: seq<ContentItem>)
    requires index < Quotes.QuotesPerCategory
    ensures |items| == 1 && IsTextItem(items[0])
    ensures items[0]["text"] in Quotes.QuotesFor(Quotes.GetTimeOfDay(hour))
  {
    ReturnResponse(Quotes.GetQuoteForTime(hour, index))
  }

  /** `MethodInfo.Invoke` on a `MyTools` method. An argument of the wrong
      runtime type makes reflection throw; `null` for the `int` parameter is
      passed as 0, and `null` for the `string` parameter stays `null`, which
      the greeting's interpolation writes as "". */
  function Run(index: nat, d: ToolDescriptor, args: seq<Value>): (r: ToolResult)
    requires index < Quotes.QuotesPerCategory
    ensures r.ContentList? ==> |r.items| == 1 && IsTextItem(r.items[0])
    ensures d.name == TimeQuoteName && |args| == 1 && args[0].VInt? ==>
      r == ContentList(GetTimeBasedQuote(args[0].i, index))
    ensures d.name == SayHelloName && |args| == 1 && args[0].VString? ==>
      r == ContentList(SayHello(args[0].s))
    ensures r.ContentList? ==> d.name == TimeQuoteName || d.name == SayHelloName
  {
    if |args| != 1 then Threw
    else if d.name == TimeQuoteName then
      match args[0]
      case VInt(h) => ContentList(GetTimeBasedQuote(h, index))
      case VNull => ContentList(GetTimeBasedQuote(0, index))
      case _ => Threw
    else if d.name == SayHelloName then
      match args[0]
      case VString(n) => ContentList(SayHello(n))
      case VNull => ContentList(SayHello(""))
      case _ => Threw
    else Threw
  }
}

=== FILE: quotes.dfy ===
/** `QuoteGenerator` (MCPServer/Program.cs:151-203): the hour-of-day
    classifier and the quote lists. The random index is a parameter. */
module Quotes {

  datatype TimeOfDay = Morning | Afternoon | Evening | Night

  /** The dictionary key of each category. */
  function Key(t: TimeOfDay): string
  {
    match t
    case Morning => "morning"
    case Afternoon => "afternoon"
    case Evening => "evening"
    case Night => "night"
  }

  /** `quotesByTime`. */
  const QuotesByTime: map<string, seq<string>> := map[
    "morning" := [
      "Every morning is a new beginning. Take a deep breath and start again.",
      "Rise up, start fresh, see the bright opportunity in each day.",
      "Morning is the dream renewed, the heart refreshed, and the spirit revived."],
    "afternoon" := [
      "Keep going! Your afternoon is full of potential.",
      "The afternoon knows what the morning never suspected.",
      "Success usually comes to those who are too busy to be looking for it."],
    "evening" := [
      "Evenings are proof that no matter what happens, every day can end beautifully.",
      "Relax and recharge; the best is yet to come.",
      "Evening is a time of real experimentation. You never want to look the same way."],
    "night" := [
      "Let the night take away all your worries.",
      "The darkest night produces the brightest stars.",
      "Good night. May your dreams be sweet and your worries be light."]]

  /** Every category has the same number of quotes. */
  const QuotesPerCategory: nat := 3

  /** The indexer `quotesByTime[timeOfDay]`: every category's key is present,
      so the lookup never throws. */
  function QuotesFor(t: TimeOfDay): (quotes: seq<string>)
    ensures |quotes| == QuotesPerCategory
    ensures Key(t) in QuotesByTime && quotes == QuotesByTime[Key(t)]
  {
    QuotesByTime[Key(t)]
  }

  /** `GetTimeOfDay`: 5-11 morning, 12-16 afternoon, 17-20 evening, every
      other integer (negative hours and hours past 23 included) night. */
  function GetTimeOfDay(hour: int): (t: TimeOfDay)
    ensures t == Morning <==> 5 <= hour <= 11
    ensures t == Afternoon <==> 12 <= hour <= 16
    ensures t == Evening <==> 17 <= hour <= 20
    ensures t == Night <==> hour < 5 || hour > 20
  {
    if 5 <= hour < 12 then Morning
    else if 12 <= hour < 17 then Afternoon
    else if 17 <= hour < 21 then Evening
    else Night
  }

  /** `GetQuoteForTime`, with `index` standing for `random.Next(quotes.Count)`. */
  function GetQuoteForTime(hour: int, index: nat): (quote: string)
    requires index < |QuotesFor(GetTimeOfDay(hour))|
    ensures quote in QuotesFor(GetTimeOfDay(hour))
  {
    QuotesFor(GetTimeOfDay(hour))[index]
  }

  /** No quote belongs to two categories, so a quote identifies the part of
      the day it was drawn for. */
  lemma CategoriesAreDisjoint(t: TimeOfDay, u: TimeOfDay, q: string)
    requires q in QuotesFor(t) && q in QuotesFor(u)
    ensures t == u
  {
  }

  /** A quote drawn for a morning hour is a morning quote and no other. */
  lemma MorningQuote(hour: int, index: nat)
    requires 5 <= hour <= 11
    requires index < QuotesPerCategory
    ensures GetQuoteForTime(hour, index) in QuotesFor(Morning)
    ensures forall t :: t != Morning ==> GetQuoteForTime(hour, index) !in QuotesFor(t)
  {
    forall t | t != Morning
      ensures GetQuoteForTime(hour, index) !in QuotesFor(t)
    {
      if GetQuoteForTime(hour, index) in QuotesFor(t) {
        CategoriesAreDisjoint(Morning, t, GetQuoteForTime(hour, index));
      }
    }
  }
}

=== FILE: results.dfy ===
/** Option and Result values, used in place of the C# program's null
    references and thrown exceptions. */
module Results {

  /** A value that may be absent (a C# `null` or a failed `TryGetValue`). */
  datatype Option<+T> = None | Some(value: T)

  /** The outcome of an operation that can throw: `Err` carries the exception
      the C# code would raise. */
  datatype Result<+T, +E> = Ok(value: T) | Err(error: E)
}

=== FILE: schema.dfy ===
/** Schema synthesis: `ToolReflectionHelper.GenerateToolsFromType` and
    `MapTypeToJsonSchemaType` (MCPServer/Program.cs:218-286), and the JSON
    shape the `tools/list` result is serialised into. */
module Schema {
  import opened Results
  import opened JsonValue
  import opened Tools

  /** `PropertySchema`: the JSON type name of one parameter and its description. */
  datatype PropertySchema = PropertySchema(schemaType: string, description: string)

  /** `InputSchema`: always of type "object" (Program.cs:227). */
  datatype InputSchema = InputSchema(schemaType: string, properties: map<string, PropertySchema>, required: seq<string>)

  /** `ToolMethodInfo`: one entry of the `tools/list` result. */
  datatype ToolMethodInfo = ToolMethodInfo(name: string, description: string, inputSchema: InputSchema)

  /** The four JSON-schema type names a parameter can be advertised with. */
  predicate IsSchemaTypeName(s: string)
  {
    s == "string" || s == "integer" || s == "number" || s == "boolean"
  }

  /** Maps a declared parameter type to a JSON-schema type name; anything not
      recognised is advertised as a string. */
  function MapTypeToJsonSchemaType(t: ClrType): (r: string)
    ensures IsSchemaTypeName(r)
    ensures r == "integer" <==> t == IntType || t == LongType
    ensures r == "number" <==> t == FloatType || t == DoubleType || t == DecimalType
    ensures r == "boolean" <==> t == BoolType
    ensures r == "string" <==> t == StringType || t.OtherType?
  {
    match t
    case StringType => "string"
    case IntType | LongType => "integer"
    case FloatType | DoubleType | DecimalType => "number"
    case BoolType => "boolean"
    case OtherType(_) => "string"
  }

  /** The property entry written for one parameter. */
  function PropertyFor(p: ParamSpec): PropertySchema
  {
    PropertySchema(MapTypeToJsonSchemaType(p.paramType), "Parameter " + p.name)
  }

  /** Parameter `i` is the last one in the list carrying its name. */
  predicate LastWithName(ps: seq<ParamSpec>, i: int)
    requires 0 <= i < |ps|
  {
    forall j :: i < j < |ps| ==> ps[j].name != ps[i].name
  }

  /** The set of parameter names of a list. */
  function NameSet(ps: seq<ParamSpec>): set<string>
  {
    set p | p in ps :: p.name
  }

  /** The `properties` dictionary, filled parameter by parameter with
      `Properties[param.Name] = ...`: a later parameter of the same name
      overwrites an earlier one. */
  function Properties(ps: seq<ParamSpec>): (m: map<string, PropertySchema>)
    ensures m.Keys == NameSet(ps)
    ensures forall i :: 0 <= i < |ps| && LastWithName(ps, i) ==> m[ps[i].name] == PropertyFor(ps[i])
    decreases |ps|
  {
    if ps == [] then map[]
    else
      var init, last := ps[..|ps| - 1], ps[|ps| - 1];
      assert ps == init + [last];
      assert forall i :: 0 <= i < |init| ==> init[i] == ps[i];
      Properties(init)[last.name := PropertyFor(last)]
  }

  /** The input schema of one tool. */
  function InputSchemaFor(d: ToolDescriptor): InputSchema
  {
    InputSchema("object", Properties(d.parameters), ParamNames(d.parameters))
  }

  /** The `ToolMethodInfo` of one tool. */
  function ToolInfo(d: ToolDescriptor): ToolMethodInfo
  {
    ToolMethodInfo(d.name, d.description, InputSchemaFor(d))
  }

  /** One entry per registered tool, in registration order. `required` names
      every parameter, including those that have a default. */
  function GenerateToolsFromType(registry: seq<ToolDescriptor>): (tools: seq<ToolMethodInfo>)
    ensures |tools| == |registry|
    ensures forall i :: 0 <= i < |registry| ==>
      && tools[i].name == registry[i].name
      && tools[i].description == registry[i].description
      && tools[i].inputSchema.schemaType == "object"
      && tools[i].inputSchema.properties.Keys == NameSet(registry[i].parameters)
      && tools[i].inputSchema.required == ParamNames(registry[i].parameters)
    ensures forall i, j :: 0 <= i < |registry| && 0 <= j < |registry[i].parameters| && LastWithName(registry[i].parameters, j) ==>
      && registry[i].parameters[j].name in tools[i].inputSchema.properties
      && tools[i].inputSchema.properties[registry[i].parameters[j].name] == PropertyFor(registry[i].parameters[j])
  {
    if registry == [] then []
    else [ToolInfo(registry[0])] + GenerateToolsFromType(registry[1..])
  }

  /** With distinct parameter names, each parameter's property entry carries
      its mapped type and the description "Parameter <name>". */
  lemma SchemaPropertyOfParam(d: ToolDescriptor, i: int)
    requires UniqueParamNames(d.parameters)
    requires 0 <= i < |d.parameters|
    ensures var props := InputSchemaFor(d).properties;
      && d.parameters[i].name in props
      && props[d.parameters[i].name].schemaType == MapTypeToJsonSchemaType(d.parameters[i].paramType)
      && props[d.parameters[i].name].description == "Parameter " + d.parameters[i].name
  {
    assert LastWithName(d.parameters, i);
  }

  /** Every name the schema marks `required` is a parameter name with a
      property entry, and every parameter without a default is required. */
  lemma RequiredNamesAreParameters(d: ToolDescriptor)
    ensures forall n :: n in InputSchemaFor(d).required ==> n in InputSchemaFor(d).properties
    ensures forall p :: p in d.parameters && p.defaultValue.None? ==> p.name in InputSchemaFor(d).required
  {
    var s := InputSchemaFor(d);
    forall n | n in s.required
      ensures n in s.properties
    {
      var i :| 0 <= i < |s.required| && s.required[i] == n;
      assert d.parameters[i] in d.parameters;
    }
    forall p | p in d.parameters && p.defaultValue.None?
      ensures p.name in s.required
    {
      var i :| 0 <= i < |d.parameters| && d.parameters[i] == p;
      assert s.required[i] == p.name;
    }
  }

  /** A parameter that has a default is still listed as required. */
  lemma DefaultedParametersAreRequired(d: ToolDescriptor, i: int)
    requires 0 <= i < |d.parameters|
    requires d.parameters[i].defaultValue.Some?
    ensures d.parameters[i].name in InputSchemaFor(d).required
  {
    assert InputSchemaFor(d).required[i] == d.parameters[i].name;
  }

  // JSON rendering of the listing, with the camelCase property names the
  // serialiser writes (dictionary keys are written as they are).

  function PropertyJson(p: PropertySchema): Json
  {
    JObject(map["type" := JString(p.schemaType), "description" := JString(p.description)])
  }

  function InputSchemaJson(s: InputSchema): Json
  {
    JObject(map[
      "type" := JString(s.schemaType),
      "properties" := JObject(map k | k in s.properties :: PropertyJson(s.properties[k])),
      "required" := JArray(Strings(s.required))])
  }

  function ToolJson(t: ToolMethodInfo): Json
  {
    JObject(map[
      "name" := JString(t.name),
      "description" := JString(t.description),
      "inputSchema" := InputSchemaJson(t.inputSchema)])
  }

  function ToolsJson(tools: seq<ToolMethodInfo>): (js: seq<Json>)
    ensures |js| == |tools|
    ensures forall i :: 0 <= i < |tools| ==> js[i] == ToolJson(tools[i])
  {
    seq(|tools|, i requires 0 <= i < |tools| => ToolJson(tools[i]))
  }

  /** What a client reads from one listed tool: the name to call it by and
      the argument names the schema requires. */
  function ReadListedTool(j: Json): Option<(string, seq<string>)>
  {
    if !j.JObject? || "name" !in j.fields || !j.fields["name"].JString? || "inputSchema" !in j.fields then None
    else
      var schema := j.fields["inputSchema"];
      if !schema.JObject? || "required" !in schema.fields || !schema.fields["required"].JArray? then None
      else match ReadStrings(schema.fields["required"].items)
        case None => None
        case Some(required) => Some((j.fields["name"].s, required))
  }

  /** What a client reads about parameter `param` from one listed tool: its
      advertised type and description. */
  function ReadListedProperty(j: Json, param: string): Option<(string, string)>
  {
    if !j.JObject? || "inputSchema" !in j.fields then None
    else
      var schema := j.fields["inputSchema"];
      if !schema.JObject? || "properties" !in schema.fields || !schema.fields["properties"].JObject? then None
      else
        var props := schema.fields["properties"].fields;
        if param !in props || !props[param].JObject? then None
        else
          var prop := props[param].fields;
          if "type" !in prop || !prop["type"].JString? || "description" !in prop || !prop["description"].JString? then None
          else Some((prop["type"].s, prop["description"].s))
  }

  /** A client reading a listed entry's property gets back exactly the
      synthesized type and description. */
  lemma ReadListedPropertyOfToolJson(t: ToolMethodInfo, param: string)
    requires param in t.inputSchema.properties
    ensures ReadListedProperty(ToolJson(t), param)
      == Some((t.inputSchema.properties[param].schemaType, t.inputSchema.properties[param].description))
  {
  }

  /** A client reading a listed entry gets back exactly the tool's name and
      its required parameter names. */
  lemma ReadListedToolOfToolJson(t: ToolMethodInfo)
    ensures ReadListedTool(ToolJson(t)) == Some((t.name, t.inputSchema.required))
  {
    ReadStringsOfStrings(t.inputSchema.required);
  }
}

=== FILE: server.dfy ===
/** The request router and response envelope (MCPServer/Program.cs:22-31,
    41-120): the `method switch`, `HandleToolCall`, `GetToolsDictionaryFromType`,
    `ReturnInitializeResponse` and `FinalResponse`. An `Err` result is an
    exception that escapes the read loop and ends the process; no JSON-RPC
    error object is ever produced. */
module Server {
  import opened Results
  import opened JsonValue
  import opened Tools
  import opened Schema
  import opened Invoker
  import MyTools
  import Quotes

  /** A deserialised request line. */
  datatype Request = Request(jsonrpc: string, id: int, methodName: string, params: Option<map<string, Json>>)

  /** The response line before serialisation. */
  datatype Response = Response(jsonrpc: string, id: int, result: map<string, Json>)

  const ProtocolVersion := "2024-11-05"

  /** The fixed `initialize` payload. */
  function ReturnInitializeResponse(): (r: map<string, Json>)
    ensures r.Keys == {"protocolVersion", "capabilities", "serverInfo", "instructions"}
    ensures r["protocolVersion"] == JString(ProtocolVersion)
    ensures r["capabilities"] == JObject(map["tools" := JObject(map["listChanged" := JBool(true)])])
  {
    map[
      "protocolVersion" := JString(ProtocolVersion),
      "capabilities" := JObject(map["tools" := JObject(map["listChanged" := JBool(true)])]),
      "serverInfo" := JObject(map["name" := JString("ExampleServer"), "version" := JString("1.0.0")]),
      "instructions" := JString("Helps returning quotes based on the time of the day.")]
  }

  /** A content item as serialised: a JSON object of string values. */
  function ItemJson(item: ContentItem): Json
  {
    JObject(map k | k in item :: JString(item[k]))
  }

  /** A content list as serialised: one JSON object per dictionary, in order. */
  function ContentJson(items: seq<ContentItem>): (js: seq<Json>)
    ensures |js| == |items|
    ensures forall i :: 0 <= i < |items| ==> js[i] == ItemJson(items[i])
  {
    seq(|items|, i requires 0 <= i < |items| => ItemJson(items[i]))
  }

  /** What a client reads from one serialised content item: a dictionary,
      when the item is an object of strings. */
  function ReadItem(j: Json): Option<ContentItem>
  {
    if j.JObject? && forall k :: k in j.fields ==> j.fields[k].JString? then
      Some(map k | k in j.fields :: j.fields[k].s)
    else None
  }

  /** What a client reads from a serialised content list. */
  function ReadContent(js: seq<Json>): Option<seq<ContentItem>>
  {
    if js == [] then Some([])
    else match (ReadItem(js[0]), ReadContent(js[1..]))
      case (Some(item), Some(rest)) => Some([item] + rest)
      case _ => None
  }

  /** Reading a serialised content item gives back the dictionary. */
  lemma ReadItemOfItemJson(item: ContentItem)
    ensures ReadItem(ItemJson(item)) == Some(item)
  {
    var fields := ItemJson(item).fields;
    assert (map k | k in fields :: fields[k].s) == item;
  }

  /** Reading a serialised content list gives back the items, in order. */
  lemma {:induction false} ReadContentOfContentJson(items: seq<ContentItem>)
    ensures ReadContent(ContentJson(items)) == Some(items)
  {
    if items != [] {
      ReadItemOfItemJson(items[0]);
      assert ContentJson(items)[1..] == ContentJson(items[1..]);
      ReadContentOfContentJson(items[1..]);
      assert [items[0]] + items[1..] == items;
    }
  }

  /** `GetToolsDictionaryFromType`: `{tools: [...]}`. */
  function ToolsDictionary(registry: seq<ToolDescriptor>): (r: map<string, Json>)
    ensures r.Keys == {"tools"} && r["tools"].JArray?
    ensures |r["tools"].items| == |registry|
    ensures forall k :: 0 <= k < |registry| ==> r["tools"].items[k] == ToolJson(GenerateToolsFromType(registry)[k])
  {
    map["tools" := JArray(ToolsJson(GenerateToolsFromType(registry)))]
  }

  /** `HandleToolCall`: `{content: [...]}`, or the dispatcher's exception. */
  function HandleToolCall(registry: seq<ToolDescriptor>, run: Runner, convert: Converter, req: Request): (r: Result<map<string, Json>, Error>)
    ensures r.Ok? <==> InvokeTool(registry, run, convert, req.params).result.Ok?
    ensures r.Ok? ==>
      r.value == map["content" := JArray(ContentJson(InvokeTool(registry, run, convert, req.params).result.value))]
    ensures r.Err? ==> r.error == InvokeTool(registry, run, convert, req.params).result.error
    ensures r.Ok? ==>
      && r.value.Keys == {"content"} && r.value["content"].JArray?
      && ReadContent(r.value["content"].items) == Some(InvokeTool(registry, run, convert, req.params).result.value)
  {
    match InvokeTool(registry, run, convert, req.params).result
    case Ok(items) =>
      ReadContentOfContentJson(items);
      Ok(map["content" := JArray(ContentJson(items))])
    case Err(e) => Err(e)
  }

  /** The `method switch`. */
  function Route(registry: seq<ToolDescriptor>, run: Runner, convert: Converter, req: Request): (r: Result<map<string, Json>, Error>)
    ensures r.Err? ==> req.methodName == "tools/call"
    ensures req.methodName == "initialize" ==> r == Ok(ReturnInitializeResponse())
    ensures req.methodName == "tools/list" ==> r == Ok(ToolsDictionary(registry))
    ensures req.methodName == "tools/call" ==> r == HandleToolCall(registry, run, convert, req)
    ensures req.methodName !in {"initialize", "tools/list", "tools/call"} ==> r == Ok(map[])
  {
    if req.methodName == "initialize" then Ok(ReturnInitializeResponse())
    else if req.methodName == "tools/list" then Ok(ToolsDictionary(registry))
    else if req.methodName == "tools/call" then HandleToolCall(registry, run, convert, req)
    else Ok(map[])
  }

  /** The serialised envelope, with the camelCase keys the serialiser writes. */
  function ResponseJson(resp: Response): Json
  {
    JObject(map[
      "jsonrpc" := JString(resp.jsonrpc),
      "id" := JNumber(resp.id as real),
      "result" := JObject(resp.result)])
  }

  /** What a client reads from a response line: the id it correlates and
      the result object, when the envelope is a JSON-RPC 2.0 one with an
      integral id. */
  function ReadEnvelope(j: Json): Option<(int, map<string, Json>)>
  {
    if j.JObject? && "jsonrpc" in j.fields && j.fields["jsonrpc"] == JString("2.0")
       && "id" in j.fields && j.fields["id"].JNumber? && j.fields["id"].n == j.fields["id"].n.Floor as real
       && "result" in j.fields && j.fields["result"].JObject?
    then Some((j.fields["id"].n.Floor, j.fields["result"].fields))
    else None
  }

  /** `FinalResponse`: wraps a result body in the JSON-RPC 2.0 envelope. A
      client reading the serialised envelope gets back the request's id and
      the body. */
  function FinalResponse(body: map<string, Json>, req: Request): (resp: Response)
    ensures resp.jsonrpc == "2.0" && resp.id == req.id && resp.result == body
    ensures ReadEnvelope(ResponseJson(resp)) == Some((req.id, body))
  {
    Response("2.0", req.id, body)
  }

  /** One pass of the read loop after deserialisation. */
  function HandleRequest(registry: seq<ToolDescriptor>, run: Runner, convert: Converter, req: Request): (r: Result<Response, Error>)
    ensures r.Ok? ==> r.value.jsonrpc == "2.0" && r.value.id == req.id
    ensures r.Ok? ==> ReadEnvelope(ResponseJson(r.value)).Some? && ReadEnvelope(ResponseJson(r.value)).value.0 == req.id
    ensures r.Err? ==> req.methodName == "tools/call"
  {
    match Route(registry, run, convert, req)
    case Ok(body) => Ok(FinalResponse(body, req))
    case Err(e) => Err(e)
  }

  /** The server of the program: the `MyTools` registry, with `index` standing
      for the random quote choice. */
  function Serve(convert: Converter, index: nat, req: Request): (r: Result<Response, Error>)
    requires index < Quotes.QuotesPerCategory
    ensures r.Ok? ==> r.value.jsonrpc == "2.0" && r.value.id == req.id
  {
    HandleRequest(MyTools.Registry, (d, a) => MyTools.Run(index, d, a), convert, req)
  }

  // ---------------------------------------------------------------------
  // Properties of the router

  /** Each method is answered as the switch says; every method other than
      `tools/call` is answered, and an unknown one with an empty result. */
  lemma RouterOutcomes(registry: seq<ToolDescriptor>, run: Runner, convert: Converter, req: Request)
    ensures req.methodName == "initialize" ==>
      HandleRequest(registry, run, convert, req) == Ok(Response("2.0", req.id, ReturnInitializeResponse()))
    ensures req.methodName == "tools/list" ==>
      HandleRequest(registry, run, convert, req) == Ok(Response("2.0", req.id, ToolsDictionary(registry)))
    ensures req.methodName == "tools/call" ==>
      match InvokeTool(registry, run, convert, req.params).result
      case Ok(items) => HandleRequest(registry, run, convert, req) == Ok(Response("2.0", req.id, map["content" := JArray(ContentJson(items))]))
      case Err(e) => HandleRequest(registry, run, convert, req) == Err(e)
    ensures req.methodName !in {"initialize", "tools/list", "tools/call"} ==>
      HandleRequest(registry, run, convert, req) == Ok(Response("2.0", req.id, map[]))
  {
  }

  /** The `tools/list` answer lists every registered tool, in order, so that a
      client reads back each tool's name and required argument names. */
  lemma ToolsListAdvertisesRegistry(registry: seq<ToolDescriptor>, run: Runner, convert: Converter, req: Request)
    requires req.methodName == "tools/list"
    ensures var r := HandleRequest(registry, run, convert, req);
      && r.Ok?
      && "tools" in r.value.result && r.value.result["tools"].JArray?
      && |r.value.result["tools"].items| == |registry|
      && forall k :: 0 <= k < |registry| ==>
           ReadListedTool(r.value.result["tools"].items[k]) == Some((registry[k].name, ParamNames(registry[k].parameters)))
  {
    var tools := GenerateToolsFromType(registry);
    forall k | 0 <= k < |registry|
      ensures ReadListedTool(ToolsJson(tools)[k]) == Some((registry[k].name, ParamNames(registry[k].parameters)))
    {
      ReadListedToolOfToolJson(tools[k]);
    }
  }

  /** Each parameter of each listed tool is advertised, in the `tools/list`
      answer, with its mapped JSON type and the description "Parameter <name>". */
  lemma ToolsListAdvertisesParameterTypes(registry: seq<ToolDescriptor>, run: Runner, convert: Converter, req: Request, k: int, j: int)
    requires req.methodName == "tools/list"
    requires 0 <= k < |registry|
    requires UniqueParamNames(registry[k].parameters)
    requires 0 <= j < |registry[k].parameters|
    ensures var r := HandleRequest(registry, run, convert, req);
      var p := registry[k].parameters[j];
      && r.Ok? && "tools" in r.value.result && r.value.result["tools"].JArray?
      && k < |r.value.result["tools"].items|
      && ReadListedProperty(r.value.result["tools"].items[k], p.name)
           == Some((MapTypeToJsonSchemaType(p.paramType), "Parameter " + p.name))
  {
    var tools := GenerateToolsFromType(registry);
    var p := registry[k].parameters[j];
    assert LastWithName(registry[k].parameters, j);
    assert tools[k].inputSchema.properties[p.name] == PropertyFor(p);
    ReadListedPropertyOfToolJson(tools[k], p.name);
    assert ToolsDictionary(registry)["tools"].items[k] == ToolJson(tools[k]);
  }

  /** What a client reads as entry `k` of a `tools/list` answer. */
  function ListedTool(answer: Result<Response, Error>, k: int): Option<(string, seq<string>)>
  {
    if answer.Ok? && "tools" in answer.value.result && answer.value.result["tools"].JArray?
       && 0 <= k < |answer.value.result["tools"].items|
    then ReadListedTool(answer.value.result["tools"].items[k])
    else None
  }

  /** A `tools/call` request built from the name and argument object a client chose. */
  function CallRequest(id: int, name: string, arguments: map<string, Json>): Request
  {
    Request("2.0", id, "tools/call", Some(map["name" := JString(name), "arguments" := JObject(arguments)]))
  }

  /** Round trip: calling a tool by the name `tools/list` advertised, with an
      argument for every name its schema requires, never fails with
      `ToolNotFound` or `MissingArgument` when tool names are distinct. A
      listed empty name is rejected as `EmptyName` instead. */
  lemma ListThenCall(
    registry: seq<ToolDescriptor>, run: Runner, convert: Converter, listReq: Request, k: int,
    name: string, required: seq<string>, callId: int, arguments: map<string, Json>)
    requires UniqueToolNames(registry)
    requires listReq.methodName == "tools/list"
    requires ListedTool(HandleRequest(registry, run, convert, listReq), k) == Some((name, required))
    requires forall n :: n in required ==> n in arguments
    ensures var r := HandleRequest(registry, run, convert, CallRequest(callId, name, arguments));
      !(r.Err? && (r.error.ToolNotFound? || r.error.MissingArgument?))
  {
    if name == "" {
      EmptyNamedToolIsUncallable(registry, run, convert, callId, arguments);
      return;
    }
    ToolsListAdvertisesRegistry(registry, run, convert, listReq);
    var items := HandleRequest(registry, run, convert, listReq).value.result["tools"].items;
    assert 0 <= k < |items| && ReadListedTool(items[k]) == Some((name, required));
    assert name == registry[k].name && required == ParamNames(registry[k].parameters);
    ArgumentsForEveryParameterReachTheTool(registry, run, convert, k, arguments);
    CallErrorsComeFromDispatcher(registry, run, convert, CallRequest(callId, name, arguments));
  }

  /** A `tools/call` request fails exactly with the dispatcher's error. */
  lemma CallErrorsComeFromDispatcher(registry: seq<ToolDescriptor>, run: Runner, convert: Converter, req: Request)
    requires req.methodName == "tools/call"
    ensures var r := HandleRequest(registry, run, convert, req);
      && (r.Err? <==> InvokeTool(registry, run, convert, req.params).result.Err?)
      && (r.Err? ==> r.error == InvokeTool(registry, run, convert, req.params).result.error)
  {
  }

  /** A tool registered under the empty name is listed but can never be
      called: validation rejects the empty name before lookup. */
  lemma EmptyNamedToolIsUncallable(registry: seq<ToolDescriptor>, run: Runner, convert: Converter, callId: int, arguments: map<string, Json>)
    ensures HandleRequest(registry, run, convert, CallRequest(callId, "", arguments)) == Err(EmptyName)
  {
  }

  // ---------------------------------------------------------------------
  // Scenarios on the program's own registry

  /** The JSON form of a single text item. */
  lemma TextItemJson(text: string)
    ensures ContentJson([map["type" := "text", "text" := text]])
      == [JObject(map["type" := JString("text"), "text" := JString(text)])]
  {
    var item: ContentItem := map["type" := "text", "text" := text];
    assert (map k | k in item :: JString(item[k])) == map["type" := JString("text"), "text" := JString(text)];
  }

  /** Binding the single parameter of a one-parameter tool whose argument
      is supplied and converts. */
  lemma SingleParameterBinds(p: ParamSpec, args: map<string, Json>, convert: Converter, v: Value)
    requires p.name in args
    requires convert(args[p.name], p.paramType) == Some(v)
    ensures Bind([p], Some(args), convert) == Ok([v])
  {
    var bound := Bind([p], Some(args), convert);
    assert BindOne([p][0], Some(args), convert) == Ok(v);
    assert bound.Ok? && |bound.value| == 1 && bound.value[0] == v;
    assert bound.value == [v];
  }

  /** `say_hello` called with any argument object whose "name" converts to a
      string `n` answers the single item "Hello, <n>!". */
  lemma SayHelloAnswers(convert: Converter, index: nat, id: int, args: map<string, Json>, n: string)
    requires index < Quotes.QuotesPerCategory
    requires "name" in args
    requires convert(args["name"], StringType) == Some(VString(n))
    ensures Serve(convert, index, CallRequest(id, MyTools.SayHelloName, args))
      == Ok(Response("2.0", id, map["content" := JArray([JObject(map["type" := JString("text"), "text" := JString("Hello, " + n + "!")])])]))
  {
    var req := CallRequest(id, MyTools.SayHelloName, args);
    var run: Runner := (d, a) => MyTools.Run(index, d, a);
    assert ReadCall(req.params) == Ok(CallTarget(MyTools.SayHelloName, Some(args)));
    assert Lookup(MyTools.Registry, MyTools.SayHelloName) == Some(1);
    assert MyTools.SayHelloTool.parameters == [ParamSpec("name", StringType, None)];
    SingleParameterBinds(ParamSpec("name", StringType, None), args, convert, VString(n));
    var item: ContentItem := map["type" := "text", "text" := "Hello, " + n + "!"];
    assert run(MyTools.SayHelloTool, [VString(n)]) == ContentList([item]);
    assert InvokeTool(MyTools.Registry, run, convert, req.params).result == Ok([item]);
    TextItemJson("Hello, " + n + "!");
  }

  /** `say_hello` with name "Ada" answers "Hello, Ada!". */
  lemma SayHelloAda(convert: Converter, index: nat, id: int)
    requires index < Quotes.QuotesPerCategory
    requires convert(JString("Ada"), StringType) == Some(VString("Ada"))
    ensures Serve(convert, index, CallRequest(id, "say_hello", map["name" := JString("Ada")]))
      == Ok(Response("2.0", id, map["content" := JArray([JObject(map["type" := JString("text"), "text" := JString("Hello, Ada!")])])]))
  {
    SayHelloAnswers(convert, index, id, map["name" := JString("Ada")], "Ada");
    assert "Hello, " + "Ada" + "!" == "Hello, Ada!";
  }

  /** The quote tool called with any argument object whose "hour" converts to
      an integer `h` answers one text item holding the quote at `index` of
      `h`'s part of the day. */
  lemma TimeQuoteAnswers(convert: Converter, index: nat, id: int, args: map<string, Json>, h: int)
    requires index < Quotes.QuotesPerCategory
    requires "hour" in args
    requires convert(args["hour"], IntType) == Some(VInt(h))
    ensures var q := Quotes.GetQuoteForTime(h, index);
      && q in Quotes.QuotesFor(Quotes.GetTimeOfDay(h))
      && Serve(convert, index, CallRequest(id, MyTools.TimeQuoteName, args))
         == Ok(Response("2.0", id, map["content" := JArray([JObject(map["type" := JString("text"), "text" := JString(q)])])]))
  {
    var req := CallRequest(id, MyTools.TimeQuoteName, args);
    var run: Runner := (d, a) => MyTools.Run(index, d, a);
    assert ReadCall(req.params) == Ok(CallTarget(MyTools.TimeQuoteName, Some(args)));
    assert Lookup(MyTools.Registry, MyTools.TimeQuoteName) == Some(0);
    assert MyTools.TimeQuoteTool.parameters == [ParamSpec("hour", IntType, None)];
    SingleParameterBinds(ParamSpec("hour", IntType, None), args, convert, VInt(h));
    var q := Quotes.GetQuoteForTime(h, index);
    var item: ContentItem := map["type" := "text", "text" := q];
    assert run(MyTools.TimeQuoteTool, [VInt(h)]) == ContentList([item]);
    assert InvokeTool(MyTools.Registry, run, convert, req.params).result == Ok([item]);
    TextItemJson(q);
  }

  /** Hour 9 answers with a single text item holding a morning quote. */
  lemma MorningHourAnswersMorningQuote(convert: Converter, index: nat, id: int, hour: Json)
    requires index < Quotes.QuotesPerCategory
    requires convert(hour, IntType) == Some(VInt(9))
    ensures var r := Serve(convert, index, CallRequest(id, MyTools.TimeQuoteName, map["hour" := hour]));
      && r.Ok?
      && r.value.result.Keys == {"content"}
      && r.value.result["content"].JArray?
      && |r.value.result["content"].items| == 1
      && exists q :: q in Quotes.QuotesFor(Quotes.Morning)
           && r.value.result["content"].items[0] == JObject(map["type" := JString("text"), "text" := JString(q)])
  {
    TimeQuoteAnswers(convert, index, id, map["hour" := hour], 9);
  }

  /** An unknown tool name is a `ToolNotFound` failure naming it. */
  lemma UnknownToolFails(convert: Converter, index: nat, id: int)
    requires index < Quotes.QuotesPerCategory
    ensures Serve(convert, index, Request("2.0", id, "tools/call", Some(map["name" := JString("does_not_exist")])))
      == Err(ToolNotFound("does_not_exist"))
  {
  }
}

=== FILE: tools.dfy ===
/** Tool descriptors: the explicit registry that replaces reflection over the
    `[Tool]`-annotated methods of `MyTools` (MCPServer/Program.cs:122-149,
    205-216). */
module Tools {
  import opened Results

  /** The declared .NET type of a tool method's parameter. The types the
      schema mapper distinguishes are listed; every other type is `OtherType`. */
  datatype ClrType =
    | StringType
    | IntType
    | LongType
    | FloatType
    | DoubleType
    | DecimalType
    | BoolType
    | OtherType(typeName: string)

  /** A bound argument as handed to `MethodInfo.Invoke`: the `object?` slot of
      the argument vector. */
  datatype Value =
    | VNull
    | VString(s: string)
    | VInt(i: int)
    | VReal(x: real)
    | VBool(b: bool)

  /** One parameter of a tool method: its name, declared type, and the default
      value when `ParameterInfo.HasDefaultValue` holds. */
  datatype ParamSpec = ParamSpec(name: string, paramType: ClrType, defaultValue: Option<Value>)

  /** A registered tool: the `[Tool(name, description)]` attribute together
      with the method's parameters in declaration order. */
  datatype ToolDescriptor = ToolDescriptor(name: string, description: string, parameters: seq<ParamSpec>)

  /** One element of a tool's result: a `Dictionary<string, string>`. */
  type ContentItem = map<string, string>

  /** A `{type: "text", text: ...}` item and nothing else. */
  predicate IsTextItem(c: ContentItem)
  {
    c.Keys == {"type", "text"} && c["type"] == "text"
  }

  /** What `MethodInfo.Invoke` gave back: a content list, some other object,
      or an exception thrown from inside the tool. */
  datatype ToolResult =
    | ContentList(items: seq<ContentItem>)
    | NotContentList
    | Threw

  /** The names of a parameter list, in declaration order. */
  function ParamNames(ps: seq<ParamSpec>): (names: seq<string>)
    ensures |names| == |ps|
    ensures forall i :: 0 <= i < |ps| ==> names[i] == ps[i].name
  {
    seq(|ps|, i requires 0 <= i < |ps| => ps[i].name)
  }

  /** No two registered tools share a name. */
  predicate UniqueToolNames(registry: seq<ToolDescriptor>)
  {
    forall i, j :: 0 <= i < j < |registry| ==> registry[i].name != registry[j].name
  }

  /** No two parameters of one tool share a name (a C# method guarantees this). */
  predicate UniqueParamNames(ps: seq<ParamSpec>)
  {
    forall i, j :: 0 <= i < j < |ps| ==> ps[i].name != ps[j].name
  }
}
